=== FILE: README.md ===
# omni-factory, modelled in Dafny

omni-factory is a small PHP object factory. Two pieces are modelled here.

- `Factory::__invoke($pathOrAlias)` resolves an identifier to an object. The
  steps, in order:
  1. It returns a cached object if the identifier is a cache key.
  2. Otherwise it takes one alias step: an identifier that is an alias is
     replaced by its target.
  3. If the class has the configured static factory method (default `create`),
     it calls that method with the factory, caches the result under the
     identifier reached, and returns it.
  4. Otherwise, if the class or interface defines the configured binding
     constant (default `CREATED_BY`), it resolves the constant's value from
     scratch and caches the answer under that value.
  5. Otherwise it throws one of two `LogicException`s: the name is not a
     type, or the type follows neither convention.
- `Config` is the builder that `Factory::create` hands to an optional
  callback. It holds the two convention names and an alias table, which is an
  ordered PHP array from alias to class path. `addAliases` and `setAliases`
  feed each element of an array to `addAlias`. Under strict types, an element
  that is not a string-to-string pair raises a `TypeError`, which is rethrown
  as a configuration error.

The model has six modules.

- `Wrappers` (`wrappers.dfy`): the `Option` and `Result` types used for
  lookups that may find nothing and for operations that may throw.
- `AliasTable` (`alias_table.dfy`): the alias table as a sequence of
  `(alias, target)` pairs, with PHP's lookup and assignment.
- `Configuration` (`config.dfy`): the `Config` builder as an immutable value.
  Each setter returns the updated value, which stands for the fluent
  `return $this`. The getters `GetConst`, `GetMethod` and `GetAliases` are
  plain field reads; the setters' contracts are stated through them, and
  `Valid` (no alias occurs twice) is kept by every operation that builds a
  `Config`.
- `ObjectFactory` (`factory.dfy`): the factory's state, `create`, and
  `__invoke` as the pure state-threading function `Resolve`. Classes are
  described by a `ClassTable`. A public static method is modelled as the
  identifiers it requests from the factory, in order, before it returns a new
  object. A constant is modelled as its string value. Objects are numbered in
  creation order, so two results are the same object exactly when their
  numbers are equal. An exception carries the state reached, because cache
  writes made by nested calls that completed stay in place.
- `FactoryProperties` (`factory_properties.dfy`): lemmas about the resolver.
  They cover strategy order, where results are cached, object identity and
  sharing, stability of cache entries, and adequacy of the recursion bound.
- `Fixtures` (`fixtures.dfy`): the repository's test scenarios replayed on
  the model.

`__invoke` may recurse without end, for example on a constant that names its
own interface. `Resolve` therefore takes a fuel argument. Only the
factory-method and constant steps consume it. Running out gives the
model-only error `OutOfFuel`. `FactoryProperties.MoreFuelSameOutcome` shows
that any other answer does not depend on the fuel.

Three consequences of the PHP code are easy to misread:
- Aliases are never consumed. `__invoke` only reads the alias table.
- A result is cached under the identifier reached after the alias step, or
  under the constant's value. It is not cached under the alias or the
  interface that was requested.
- Requesting a target and then its alias does not return the same object.
  Each request for such an alias runs the factory method again, as long as no
  cache key equals the alias (`FactoryProperties.AliasRebuildsEachTime`).
  Alias and target agree only when the target is requested after the alias
  (`FactoryProperties.SecondRequestHitsCache`), or when the target is reached
  through a binding constant (`FactoryProperties.BoundIdentity`).

## Model

| member | source | states |
|---|---|---|
| `AliasTable.GetAgreesWithEntries` | src/Factory.php:50-52 | The alias lookup finds something exactly when the identifier is a key of the table, and the pair it finds is an entry of the table. In a table without repeated keys, it answers with the value of the one entry carrying the key. |
| `AliasTable.Put` | src/Config.php:64-69 | After `$aliases[$alias] = $path`, the alias maps to the path and every other alias maps to what it mapped to before. An existing key keeps its place among the keys, and a new key is appended after all of them. |
| `AliasTable.PutKeepsKeyUnique` | src/Config.php:66 | Assignment never creates a second entry for a key. |
| `AliasTable.PutAppendsNewKey` | src/Config.php:66 | Assigning a key that is not yet present appends exactly one entry, `(alias, path)`, at the end. |
| `AliasTable.PutReplacesInPlace` | src/Config.php:66 | Assigning a present key keeps the length, replaces only that entry's value at its position, and changes nothing else. |
| `Configuration.Default` | src/Config.php:14-18 | A new `Config` has constant name `CREATED_BY`, method name `create` and no aliases. |
| `Configuration.SetConst` | src/Config.php:20-30 | `getConst` returns what `setConst` set. The method name and the aliases are unchanged. |
| `Configuration.SetMethod` | src/Config.php:32-42 | `getMethod` returns what `setMethod` set. The constant name and the aliases are unchanged. |
| `Configuration.AddAlias` | src/Config.php:64-69 | After `addAlias`, the alias maps to the path and every other alias is unaffected. The key order follows PHP's overwrite-or-append rule. The names are unchanged, and the table keeps unique keys. |
| `Configuration.Accepted` | src/Config.php:51-62 | The aliases `array_walk` manages to add are the longest prefix of string-to-string elements, in input order. The element after that prefix, if any, is not such a pair. |
| `Configuration.AddAliases` | src/Config.php:51-62 | `addAliases` succeeds exactly when every element is a string-to-string pair; otherwise it throws the configuration error. Either way, no key is lost, the names are unchanged, and the table keeps unique keys. The order of the keys is stated by `Configuration.AddAliasesKeyOrder`. |
| `Configuration.AddAliasesLookup` | src/Config.php:51-62 | After `addAliases`, even one that threw, an alias maps to the value of the last accepted element with that key. An alias with no accepted element maps to its previous target. |
| `Configuration.AddAliasesAppends` | src/Config.php:51-62 | When the accepted aliases are new and have no repeats, `addAliases` appends them in input order. |
| `Configuration.AddAliasesKeyOrder` | src/Config.php:51-69 | After `addAliases`, even one that threw, the existing aliases keep their places. Each accepted alias that was not a key yet is appended once, where it first occurs in the input. A repeated or existing alias adds no key; its value is stated by `Configuration.AddAliasesLookup`. |
| `Configuration.SetAliases` | src/Config.php:44-49 | `setAliases` succeeds exactly when every element is a string-to-string pair, leaves the names alone, and keeps the table's keys unique. |
| `Configuration.SetAliasesReplaces` | src/Config.php:44-49 | Nothing from before `setAliases` survives. The table is exactly the accepted pairs in input order, and on success that is every element. |
| `ObjectFactory.Create` | src/Factory.php:37-42 | The factory copies the configuration's aliases, method name and constant name, and starts with an empty cache. |
| `ObjectFactory.CreateWith` | src/Factory.php:29-42 | Without a callback, the factory has the default settings and no aliases. With a callback, it is built from the `Config` that the callback's edits leave behind. |
| `ObjectFactory.SubstituteFollowsTable` | src/Factory.php:50-52 | The alias step `Substitute` leaves an identifier that is not an alias unchanged. It replaces an alias by the target of its entry, once: the target is used even when it is itself an alias. |
| `ObjectFactory.StrategyOf` | src/Factory.php:54-75 | After the alias step, the factory method is chosen exactly when the class has it, and it carries that method's requests. The constant is chosen exactly when the method is absent and the constant is defined, and it carries the constant's value. "Not found" happens exactly when the name is not a type. |
| `ObjectFactory.Created` | src/Factory.php:56 | When the factory method's requests threw, the error propagates and nothing more is written. Otherwise its result is an object created after every earlier one, and the only write caches it under the identifier reached. |
| `ObjectFactory.Redirected` | src/Factory.php:59-61 | The answer is the answer for the constant's value. An error propagates with the state unchanged. On success the only write caches the answer under the constant's value, and no object is created. |
| `ObjectFactory.Resolve` | src/Factory.php:44-76 | A request keeps the settings, removes no cache key and never reuses an object number. A cache hit returns the cached object and changes nothing. |
| `ObjectFactory.ResolveAll` | test/Res/BoundClass.php:12-17 | A factory method's requests return one object per request. Every returned object has been created, and the state reached keeps those guarantees. The order is stated by `FactoryProperties.SingleRequest` and `FactoryProperties.ResolveAllAppend`. |
| `FactoryProperties.ResolveSeesOnlyStrategies` | src/Factory.php:54-61 | Two class tables that offer the same strategy for every name resolve every identifier alike. |
| `FactoryProperties.ResolveAllSeesOnlyStrategies` | src/Factory.php:54-61 | The same holds for the requests a factory method makes. |
| `FactoryProperties.MethodShadowsConstant` | src/Factory.php:54-58 | On a class with the factory method, the constant is never consulted. Changing or removing it changes no outcome. |
| `FactoryProperties.MethodResultIsFreshAndCachedUnderTarget` | src/Factory.php:50-56 | The factory method's result is a new object, different from every object cached before. It is cached under the alias's target, not under the alias. |
| `FactoryProperties.SecondRequestHitsCache` | src/Factory.php:46-56 | After the factory method has built an identifier, directly or through an alias, requesting the identifier reached returns the same object and changes nothing. |
| `FactoryProperties.UnresolvableIdentifiers` | src/Factory.php:63-75 | A name that is not a type gives "not found". A type with neither convention gives the second error, naming both settings. Both errors carry the identifier reached after the alias step, and neither touches the cache. |
| `FactoryProperties.AliasRebuildsEachTime` | src/Factory.php:46-56 | While no cache key equals the alias, requesting it twice builds two different objects. The target's cache entry is overwritten with the second one. |
| `FactoryProperties.AliasToLeafNeverCached` | src/Factory.php:50-56 | An alias to a class whose factory method requests nothing creates exactly one object, cached only under the target. The alias never becomes a cache key. |
| `FactoryProperties.ConstantRedirects` | src/Factory.php:58-61 | The constant's value is requested from scratch, and the answer is that request's answer. On success, the only further write caches it under the value. |
| `FactoryProperties.BoundIdentity` | src/Factory.php:46-61 | Once an interface has been resolved through its constant, requesting the bound class gives the same object without any change. So does requesting any uncached identifier that the alias step takes to the same name. |
| `FactoryProperties.CachedEntryStable` | src/Factory.php:44-76 | A cache entry that no alias targets is never overwritten by later requests, nested ones included. |
| `FactoryProperties.ResolveAllCachedEntryStable` | src/Factory.php:44-76 | The same holds across the requests of a factory method. |
| `FactoryProperties.ResolveAllCachesRequests` | test/Res/StaticMethodDependencies.php:12-17 | Every settling identifier a factory method requested ends up cached with the object it received. An identifier settles when it is cached already, or is no alias and has the factory method. |
| `FactoryProperties.SingleRequest` | src/Factory.php:56 | A factory method that requests one identifier receives exactly what that one request returns, in the state it leaves; if the request throws, the exception escapes `call_user_func` with the same error. |
| `FactoryProperties.ResolveAllAppend` | src/Factory.php:56 | A factory method's requests are made in order. Splitting the list in two, the second part runs in the state the first part left and its objects follow the first part's. The first error stops every later request and is the error reported. |
| `FactoryProperties.DependenciesShared` | test/FactoryTest.php:35-45 | After a factory method has run, requesting one of its settling dependencies again returns the object that was handed to the method. |
| `FactoryProperties.MoreFuelSameOutcome` | src/Factory.php:44-76 | An answer other than running out of fuel stays the same with any larger fuel, so it is the answer of the unbounded recursion. |
| `FactoryProperties.ResolveAllMoreFuelSameOutcome` | src/Factory.php:44-76 | The same holds for a factory method's requests. |
| `Fixtures.TestFactory` | test/FactoryTest.php:83-90 | The tests' factory has default settings and the single alias `interface-with-constant`. |
| `Fixtures.StaticMethodWithoutDependencies` | test/FactoryTest.php:25-30 | A class whose `create` requests nothing gives a new object, cached under its name. |
| `Fixtures.StaticMethodWithDependencies` | test/FactoryTest.php:35-45 | The dependency is built first. Requesting it afterwards returns the object the dependent received. |
| `Fixtures.BoundClassByMethod` | test/Res/BoundClass.php:8-17 | The bound class inherits the constant but is built by its own `create`, after its dependency chain. |
| `Fixtures.InterfaceByConstant` | test/FactoryTest.php:50-60 | The interface gives the bound class's object, which is cached under the bound class and not the interface. The dependency is shared. |
| `Fixtures.AliasResolves` | test/FactoryTest.php:65-71 | The alias and the interface it names give the same object. |
| `Fixtures.NeitherConventionFails` | test/FactoryTest.php:76-81 | A class with neither convention throws the neither-convention error, and the state is unchanged. |
| `Fixtures.MissingClassFails` | src/Factory.php:64-67 | A name that is not a type throws the not-found error, and the state is unchanged. |
| `Fixtures.ConfigDefaultsAndSetters` | test/ConfigTest.php:19-100 | Default names and the empty table are as expected, and the setters set. |
| `Fixtures.ConfigAliasOverwritten` | test/ConfigTest.php:117-139 | Adding an alias twice leaves one entry holding the second path. |
| `Fixtures.ConfigAddAliases` | test/ConfigTest.php:159-173 | Bulk addition keeps input order. |
| `Fixtures.ConfigAddAliasesOverrides` | test/ConfigTest.php:188-205 | A later bulk addition overwrites an existing alias in place. |
| `Fixtures.ConfigListRejected` | test/ConfigTest.php:178-183 | A plain list is rejected by `addAliases`, and by `setAliases` (test/ConfigTest.php:244-249). |
| `Fixtures.ConfigSetAliasesReplaces` | test/ConfigTest.php:254-272 | `setAliases` replaces every earlier alias. |

## Left out

- PHP reflection is an input, not modelled. `class_exists`, `interface_exists`,
  `is_callable` and `defined` become lookups in a `ClassTable`.
- Methods that are not public static are left out, because `is_callable`
  rejects them.
- PHP treats class and method names case-insensitively. Here identifiers and
  names are compared exactly.
- The body of a factory method is reduced to the identifiers it requests
  before returning a new object. Any other work, any branching on the objects
  received, and exceptions of its own are outside the model.
- A factory method that returns `null` is left out. Every result is a new
  object, so the `isset` check on the cache never sees a stored `null`.
- A constant is modelled as a string. A non-string constant value would be
  rejected by `__invoke`'s `string` parameter under strict types; that case is
  left out.
- The text of exception messages is left out. The two errors carry the values
  the messages interpolate.
- `ConfigException` (src/Config.php) and `InvalidArgumentException` (the copy
  of `Config` at src/Factory.php:86-149) are one error kind here. Apart from
  that, the two copies are identical.
- PHP arrays turn integer-like string keys into integers. The caller of
  `AddAliases` states each key's type (`StrKey` or `IntKey`) as PHP would
  store it.
- The configuration callback of `Factory::create` is modelled as a function
  from `Config` to `Config`. Exceptions it throws, and side effects other than
  editing the `Config`, are left out.
- `ObjectFactory.Resolve`: a chain of factory-method and constant steps longer
  than the fuel ends in the model-only error `OutOfFuel`, where PHP would keep
  recursing until the stack runs out.
- The shapes of `InterfaceWithConstant`, `StaticMethodNoDependencies` and
  `ClassWithNoMethod` in `Fixtures.TestClasses` are taken from what
  test/FactoryTest.php expects of them, because their class files are not
  part of this model.

=== FILE: alias_table.dfy ===
/** The alias table: a PHP array whose keys and values are strings, kept as its
    insertion-ordered sequence of entries. Assigning to an existing key keeps the
    entry's position; assigning to a new key appends an entry. */
module AliasTable {
  import opened Wrappers

  /** Entries (alias, target) in insertion order. */
  type Table = seq<(string, string)>

  /** The keys of a table, in order. */
  function Keys(t: Table): (ks: seq<string>)
    ensures |ks| == |t|
    ensures forall i :: 0 <= i < |t| ==> ks[i] == t[i].0
  {
    if |t| == 0 then [] else [t[0].0] + Keys(t[1..])
  }

  /** No key occurs twice: the shape every PHP array has. */
  predicate KeyUnique(t: Table)
  {
    Distinct(Keys(t))
  }

  /** No element occurs twice. */
  predicate Distinct(ks: seq<string>)
  {
    forall i, j :: 0 <= i < j < |ks| ==> ks[i] != ks[j]
  }

  /** Looking up a key, as `isset($t[$k])` followed by `$t[$k]` does. */
  function Get(t: Table, k: string): Option<string>
  {
    if |t| == 0 then None
    else if t[0].0 == k then Some(t[0].1)
    else Get(t[1..], k)
  }

  /** A lookup finds exactly the keys of the table, answers with an entry of
      the table, and in a table without repeated keys answers with the value
      of the one entry carrying the key. */
  lemma {:induction false} GetAgreesWithEntries(t: Table, k: string)
    ensures Get(t, k).None? <==> k !in Keys(t)
    ensures Get(t, k).Some? ==> (k, Get(t, k).value) in t
    ensures KeyUnique(t) ==> forall i :: 0 <= i < |t| && t[i].0 == k ==> Get(t, k) == Some(t[i].1)
  {
    if |t| > 0 {
      GetAgreesWithEntries(t[1..], k);
      assert Keys(t) == [t[0].0] + Keys(t[1..]);
      if KeyUnique(t) {
        assert KeyUnique(t[1..]) by {
          forall i, j | 0 <= i < j < |t[1..]|
            ensures Keys(t[1..])[i] != Keys(t[1..])[j]
          {
            assert Keys(t)[i + 1] != Keys(t)[j + 1];
          }
        }
        forall i | 0 <= i < |t| && t[i].0 == k
          ensures Get(t, k) == Some(t[i].1)
        {
          if i > 0 {
            assert t[1..][i - 1] == t[i];
          }
        }
      }
    }
  }

  /** The assignment `$t[$k] = $v`. */
  function Put(t: Table, k: string, v: string): (r: Table)
    ensures Get(r, k) == Some(v)
    ensures forall k' :: k' != k ==> Get(r, k') == Get(t, k')
    ensures Keys(r) == if k in Keys(t) then Keys(t) else Keys(t) + [k]
  {
    if |t| == 0 then [(k, v)]
    else if t[0].0 == k then [(k, v)] + t[1..]
    else [t[0]] + Put(t[1..], k, v)
  }

  /** Assignment keeps the table free of repeated keys. */
  lemma PutKeepsKeyUnique(t: Table, k: string, v: string)
    ensures KeyUnique(t) ==> KeyUnique(Put(t, k, v))
  {
    var ks := Keys(t);
    if KeyUnique(t) && k !in ks {
      var ks' := ks + [k];
      forall i, j | 0 <= i < j < |ks'|
        ensures ks'[i] != ks'[j]
      {
        if j == |ks| {
          assert ks'[i] == ks[i];
        }
      }
    }
  }

  /** A new key is appended as the last entry. */
  lemma {:induction false} PutAppendsNewKey(t: Table, k: string, v: string)
    requires k !in Keys(t)
    ensures Put(t, k, v) == t + [(k, v)]
  {
    if |t| > 0 {
      assert Keys(t) == [t[0].0] + Keys(t[1..]);
      assert k !in Keys(t[1..]);
      PutAppendsNewKey(t[1..], k, v);
      assert Put(t, k, v) == [t[0]] + Put(t[1..], k, v);
      assert [t[0]] + (t[1..] + [(k, v)]) == t + [(k, v)];
    }
  }

  /** An existing key keeps its position and only its value changes; every other
      entry is unchanged. */
  lemma {:induction false} PutReplacesInPlace(t: Table, k: string, v: string)
    requires KeyUnique(t) && k in Keys(t)
    ensures |Put(t, k, v)| == |t|
    ensures forall i :: 0 <= i < |t| ==>
      Put(t, k, v)[i] == (if t[i].0 == k then (k, v) else t[i])
  {
    var r := Put(t, k, v);
    if t[0].0 == k {
      forall i | 0 < i < |t|
        ensures t[i].0 != k
      {
        assert Keys(t)[0] != Keys(t)[i];
      }
    } else {
      assert KeyUnique(t[1..]) by {
        forall i, j | 0 <= i < j < |t[1..]|
          ensures Keys(t[1..])[i] != Keys(t[1..])[j]
        {
          assert Keys(t)[i + 1] != Keys(t)[j + 1];
        }
      }
      assert k in Keys(t[1..]) by {
        var j :| 0 <= j < |t| && Keys(t)[j] == k;
        assert Keys(t[1..])[j - 1] == k;
      }
      PutReplacesInPlace(t[1..], k, v);
    }
  }

  /** In a key-unique concatenation, the first key of the second part is not a key of the first. */
  lemma KeyUniqueSplit(t: Table, ps: Table)
    requires |ps| > 0 && KeyUnique(t + ps)
    ensures ps[0].0 !in Keys(t)
  {
    var u := t + ps;
    forall i | 0 <= i < |t|
      ensures Keys(t)[i] != ps[0].0
    {
      assert Keys(t)[i] == Keys(u)[i];
      assert Keys(u)[|t|] == ps[0].0;
    }
  }

  /** Assigning the first entry of a continuation whose first key is new, then
      appending the rest, rebuilds the concatenation. */
  lemma PutFirstThenRest(t: Table, ps: Table)
    requires |ps| > 0 && ps[0].0 !in Keys(t)
    ensures Put(t, ps[0].0, ps[0].1) + ps[1..] == t + ps
  {
    PutAppendsNewKey(t, ps[0].0, ps[0].1);
    AppendFirstThenRest(t, ps);
  }

  lemma AppendFirstThenRest<T>(t: seq<T>, ps: seq<T>)
    requires |ps| > 0
    ensures (t + [ps[0]]) + ps[1..] == t + ps
  {
    assert [ps[0]] + ps[1..] == ps;
  }
}

=== FILE: config.dfy ===
/** The configuration builder `Config` (src/Config.php; src/Factory.php carries a
    copy that differs only in the exception class it throws). A value of
    `Config` is the object's state; each setter returns the updated state, which
    stands for the fluent `return $this`. */
module Configuration {
  import opened Wrappers
  import opened AliasTable

  /** A PHP array key: always a string or an integer. */
  datatype Key = StrKey(s: string) | IntKey(n: int)

  /** A PHP array value as far as the builder cares: a string, or anything else. */
  datatype Value = StrVal(s: string) | OtherVal

  /** One element of the array handed to `addAliases`/`setAliases`. */
  datatype Entry = Entry(key: Key, value: Value)
  {
    /** Under strict types, `addAlias(string $alias, string $path)` accepts the
        element only when both key and value are strings. */
    predicate IsAlias()
    {
      key.StrKey? && value.StrVal?
    }
  }

  /** The configuration error kind (a `ConfigException`, or an
      `InvalidArgumentException` in the copy inside src/Factory.php). */
  datatype ConfigError = InvalidAliases

  datatype Config = Config(constName: string, methodName: string, aliases: Table)

  /** The outcome of a bulk alias update. The builder is mutated entry by entry,
      so a thrown error still leaves the entries before the bad one in place. */
  datatype Applied = Done(config: Config) | Thrown(config: Config, error: ConfigError)

  /** The alias table has the shape of a PHP array: no repeated key. */
  predicate Valid(c: Config)
  {
    KeyUnique(c.aliases)
  }

  /** A fresh `new Config`. */
  function Default(): (c: Config)
    ensures GetConst(c) == "CREATED_BY"
    ensures GetMethod(c) == "create"
    ensures GetAliases(c) == []
    ensures Valid(c)
  {
    Config("CREATED_BY", "create", [])
  }

  function GetConst(c: Config): string
  {
    c.constName
  }

  function GetMethod(c: Config): string
  {
    c.methodName
  }

  /** `getAliases`: the table handed to the factory. */
  function GetAliases(c: Config): Table
  {
    c.aliases
  }

  function SetConst(c: Config, name: string): (r: Config)
    ensures GetConst(r) == name
    ensures GetMethod(r) == GetMethod(c) && GetAliases(r) == GetAliases(c)
  {
    c.(constName := name)
  }

  function SetMethod(c: Config, name: string): (r: Config)
    ensures GetMethod(r) == name
    ensures GetConst(r) == GetConst(c) && GetAliases(r) == GetAliases(c)
  {
    c.(methodName := name)
  }

  /** `addAlias($alias, $path)`: overwrite in place or append. */
  function AddAlias(c: Config, alias: string, path: string): (r: Config)
    ensures Get(GetAliases(r), alias) == Some(path)
    ensures forall k :: k != alias ==> Get(GetAliases(r), k) == Get(GetAliases(c), k)
    ensures Keys(GetAliases(r)) ==
      if alias in Keys(GetAliases(c)) then Keys(GetAliases(c)) else Keys(GetAliases(c)) + [alias]
    ensures GetConst(r) == GetConst(c) && GetMethod(r) == GetMethod(c)
    ensures Valid(c) ==> Valid(r)
  {
    PutKeepsKeyUnique(c.aliases, alias, path);
    c.(aliases := Put(c.aliases, alias, path))
  }

  /** The aliases `addAliases` manages to add: the entries before the first
      element that is not a string-to-string pair. */
  function Accepted(entries: seq<Entry>): (ps: Table)
    ensures |ps| <= |entries|
    ensures forall i :: 0 <= i < |ps| ==> entries[i] == Entry(StrKey(ps[i].0), StrVal(ps[i].1))
    ensures |ps| < |entries| ==> !entries[|ps|].IsAlias()
  {
    if |entries| == 0 || !entries[0].IsAlias() then []
    else [(entries[0].key.s, entries[0].value.s)] + Accepted(entries[1..])
  }

  /** The value the last entry with key `k` assigns, if any entry has that key. */
  function Latest(ps: Table, k: string): (r: Option<string>)
    ensures r.None? <==> k !in Keys(ps)
    ensures r.Some? ==> (k, r.value) in ps
  {
    if |ps| == 0 then None
    else
      var later := Latest(ps[1..], k);
      if later.Some? then later
      else if ps[0].0 == k then Some(ps[0].1)
      else None
  }

  /** The later assignment if there is one, else the earlier value. */
  function Overlay(later: Option<string>, earlier: Option<string>): Option<string>
  {
    if later.Some? then later else earlier
  }

  /** `addAliases($aliases)`: `array_walk` hands every element, in order, to
      `addAlias`; the first element that is not a string-to-string pair raises a
      TypeError, which is rethrown as the configuration error. */
  function AddAliases(c: Config, entries: seq<Entry>): (r: Applied)
    ensures r.Done? <==> forall i :: 0 <= i < |entries| ==> entries[i].IsAlias()
    ensures Keys(GetAliases(c)) <= Keys(GetAliases(r.config))
    ensures GetConst(r.config) == GetConst(c) && GetMethod(r.config) == GetMethod(c)
    ensures Valid(c) ==> Valid(r.config)
    decreases |entries|
  {
    if |entries| == 0 then Done(c)
    else if !entries[0].IsAlias() then Thrown(c, InvalidAliases)
    else AddAliases(AddAlias(c, entries[0].key.s, entries[0].value.s), entries[1..])
  }

  /** After `addAliases`, an alias maps to the value of the last accepted entry
      for it, and otherwise to what it mapped to before: later entries win. */
  lemma {:induction false} AddAliasesLookup(c: Config, entries: seq<Entry>, k: string)
    ensures Get(GetAliases(AddAliases(c, entries).config), k) ==
      Overlay(Latest(Accepted(entries), k), Get(GetAliases(c), k))
    decreases |entries|
  {
    if |entries| > 0 && entries[0].IsAlias() {
      var c' := AddAlias(c, entries[0].key.s, entries[0].value.s);
      AddAliasesLookup(c', entries[1..], k);
      assert Accepted(entries)[1..] == Accepted(entries[1..]);
    }
  }

  /** The keys of `ks` that `known` does not hold yet, each once, in the order
      of their first occurrence: the keys a run of PHP array assignments
      appends. */
  function FreshKeys(known: seq<string>, ks: seq<string>): (r: seq<string>)
    ensures forall k :: k in r <==> k in ks && k !in known
    decreases |ks|
  {
    if |ks| == 0 then []
    else if ks[0] in known then FreshKeys(known, ks[1..])
    else [ks[0]] + FreshKeys(known + [ks[0]], ks[1..])
  }

  /** Bulk insertion orders keys as PHP does: the existing keys keep their
      places, and each accepted alias that is new is appended when it is first
      met, so later entries with the same key change only its value. */
  lemma {:induction false} AddAliasesKeyOrder(c: Config, entries: seq<Entry>)
    ensures var known := Keys(GetAliases(c));
      Keys(GetAliases(AddAliases(c, entries).config)) == known + FreshKeys(known, Keys(Accepted(entries)))
    decreases |entries|
  {
    if |entries| > 0 && entries[0].IsAlias() {
      var k, v := entries[0].key.s, entries[0].value.s;
      var c' := AddAlias(c, k, v);
      assert AddAliases(c, entries) == AddAliases(c', entries[1..]);
      AddAliasesKeyOrder(c', entries[1..]);
      AcceptedKeysFirst(entries);
      FreshKeysStep(Keys(GetAliases(c)), k, Keys(Accepted(entries[1..])));
    } else {
      assert Accepted(entries) == [];
    }
  }

  /** The accepted keys start with the first element's key when it is accepted. */
  lemma AcceptedKeysFirst(entries: seq<Entry>)
    requires |entries| > 0 && entries[0].IsAlias()
    ensures Keys(Accepted(entries)) == [entries[0].key.s] + Keys(Accepted(entries[1..]))
  {
    assert Accepted(entries)[1..] == Accepted(entries[1..]);
  }

  /** One assignment, then the rest: the key order `FreshKeys` predicts is the
      one PHP's overwrite-or-append rule gives after the first key. */
  lemma FreshKeysStep(known: seq<string>, k: string, rest: seq<string>)
    ensures k in known ==> known + FreshKeys(known, [k] + rest) == known + FreshKeys(known, rest)
    ensures k !in known ==>
      known + FreshKeys(known, [k] + rest) == (known + [k]) + FreshKeys(known + [k], rest)
  {
    var ks := [k] + rest;
    assert ks[0] == k && ks[1..] == rest;
    if k !in known {
      var tail := FreshKeys(known + [k], rest);
      assert FreshKeys(known, ks) == [k] + tail;
      assert known + ([k] + tail) == (known + [k]) + tail;
    }
  }

  /** `setAliases($aliases)`: empty the table, then `addAliases`. */
  function SetAliases(c: Config, entries: seq<Entry>): (r: Applied)
    ensures r.Done? <==> forall i :: 0 <= i < |entries| ==> entries[i].IsAlias()
    ensures GetConst(r.config) == GetConst(c) && GetMethod(r.config) == GetMethod(c)
    ensures Valid(r.config)
  {
    AddAliases(c.(aliases := []), entries)
  }

  /** The elements of a PHP array never share a key. */
  predicate DistinctKeys(entries: seq<Entry>)
  {
    forall i, j :: 0 <= i < j < |entries| ==> entries[i].key != entries[j].key
  }

  /** When none of the accepted aliases is already a key (nor repeats), bulk
      insertion appends them in input order. */
  lemma {:induction false} AddAliasesAppends(c: Config, entries: seq<Entry>)
    requires KeyUnique(GetAliases(c) + Accepted(entries))
    ensures GetAliases(AddAliases(c, entries).config) == GetAliases(c) + Accepted(entries)
    decreases |entries|
  {
    var ps := Accepted(entries);
    if |ps| > 0 {
      var t := GetAliases(c);
      var k, v := ps[0].0, ps[0].1;
      var c' := AddAlias(c, k, v);
      assert AddAliases(c, entries) == AddAliases(c', entries[1..]) by {
        assert entries[0] == Entry(StrKey(k), StrVal(v));
      }
      assert ps[1..] == Accepted(entries[1..]);
      KeyUniqueSplit(t, ps);
      PutFirstThenRest(t, ps);
      AddAliasesAppends(c', entries[1..]);
    } else {
      assert AddAliases(c, entries).config == c;
    }
  }

  /** `setAliases` keeps no earlier entry: afterwards the table is exactly the
      input's string-to-string pairs in input order on success, and exactly the
      valid prefix when an element is rejected. */
  lemma SetAliasesReplaces(c: Config, entries: seq<Entry>)
    requires DistinctKeys(entries)
    ensures GetAliases(SetAliases(c, entries).config) == Accepted(entries)
    ensures SetAliases(c, entries).Done? ==> |Accepted(entries)| == |entries|
  {
    var ps := Accepted(entries);
    forall i, j | 0 <= i < j < |ps|
      ensures Keys(ps)[i] != Keys(ps)[j]
    {
      assert entries[i].key != entries[j].key;
    }
    assert GetAliases(c.(aliases := [])) + ps == ps;
    AddAliasesAppends(c.(aliases := []), entries);
  }
}

=== FILE: factory.dfy ===
/** The resolver `Factory` (src/Factory.php): identifier → object, with a cache,
    a single-step alias table, and two conventions looked up on the class table,
    a static factory method (preferred) and a binding constant (a redirect). */
module ObjectFactory {
  import opened Wrappers
  import opened AliasTable
  import Configuration

  /** What the resolver can learn about a class or interface: its static methods,
      each standing for "request these identifiers from the factory in order,
      then return a new object", and its constants. */
  datatype ClassDecl = ClassDecl(methods: map<string, seq<string>>, consts: map<string, string>)

  /** The declared classes and interfaces by name; an absent name is neither. */
  type ClassTable = map<string, ClassDecl>

  /** An object, identified by the order of its creation: two results are the
      same object exactly when their ids are equal. */
  type Obj = nat

  /** The factory object: its cache `objs`, the next object id, and the three
      settings copied from the configuration. */
  datatype Factory = Factory(
    objs: map<string, Obj>,
    next: Obj,
    aliases: Table,
    methodName: string,
    constName: string)

  /** The two LogicExceptions of `__invoke`, with their payloads, plus the
      model's own exhaustion error standing for unbounded recursion. */
  datatype ResolveError =
    | NotFound(path: string)
    | NeitherConvention(path: string, constName: string, methodName: string)
    | OutOfFuel

  /** The factory reached and the value returned or the error thrown. A thrown
      error keeps the state: writes made by completed nested calls persist. */
  datatype Outcome<T> = Outcome(factory: Factory, result: Result<T, ResolveError>)

  /** Every cached object was created before the counter's current value. */
  predicate IdsIssued(f: Factory)
  {
    forall k :: k in f.objs ==> f.objs[k] < f.next
  }

  /** The state keeps `IdsIssued` and a returned object was created before
      the counter's current value. */
  predicate IssuedResult(r: Outcome<Obj>)
  {
    IdsIssued(r.factory) && (r.result.Ok? ==> r.result.value < r.factory.next)
  }

  /** The state keeps `IdsIssued` and every returned object was created before
      the counter's current value. */
  predicate IssuedResults(r: Outcome<seq<Obj>>)
  {
    IdsIssued(r.factory) && (r.result.Ok? ==> forall i :: 0 <= i < |r.result.value| ==> r.result.value[i] < r.factory.next)
  }

  /** `g` is a later state of `f`: the settings are untouched, no cache key is
      removed and the counter never goes back. */
  predicate Extends(f: Factory, g: Factory)
  {
    && g.aliases == f.aliases
    && g.methodName == f.methodName
    && g.constName == f.constName
    && f.objs.Keys <= g.objs.Keys
    && f.next <= g.next
  }

  /** `Factory::create`: a configured `Config` is copied into a factory with an
      empty cache. */
  function Create(c: Configuration.Config): (f: Factory)
    ensures f.objs == map[] && f.next == 0
    ensures f.aliases == Configuration.GetAliases(c)
    ensures f.methodName == Configuration.GetMethod(c)
    ensures f.constName == Configuration.GetConst(c)
    ensures IdsIssued(f)
  {
    Factory(map[], 0, Configuration.GetAliases(c), Configuration.GetMethod(c), Configuration.GetConst(c))
  }

  /** `Factory::create($func)`: the optional callback edits a fresh `Config`. */
  function CreateWith(configure: Option<Configuration.Config -> Configuration.Config>): (f: Factory)
    ensures configure.None? ==>
      f.objs == map[] && f.aliases == [] && f.methodName == "create" && f.constName == "CREATED_BY"
    ensures configure.Some? ==> f == Create(configure.value(Configuration.Default()))
  {
    match configure
    case None => Create(Configuration.Default())
    case Some(edit) => Create(edit(Configuration.Default()))
  }

  /** One alias step: the target if the identifier is an alias, else itself. */
  function Substitute(f: Factory, pathOrAlias: string): string
  {
    match Get(f.aliases, pathOrAlias)
    case Some(target) => target
    case None => pathOrAlias
  }

  /** The alias step is a single lookup: an identifier that is not an alias
      stays as it is, and an alias becomes the target of its entry, even when
      that target is itself an alias. */
  lemma SubstituteFollowsTable(f: Factory, id: string)
    ensures id !in Keys(f.aliases) ==> Substitute(f, id) == id
    ensures id in Keys(f.aliases) ==> (id, Substitute(f, id)) in f.aliases
    ensures KeyUnique(f.aliases) ==>
      forall i :: 0 <= i < |f.aliases| && f.aliases[i].0 == id ==> Substitute(f, id) == f.aliases[i].1
  {
    GetAgreesWithEntries(f.aliases, id);
  }

  /** `is_callable([$path, $method])`. */
  predicate HasMethod(classes: ClassTable, path: string, methodName: string)
  {
    path in classes && methodName in classes[path].methods
  }

  /** `defined("$path::$const")`. */
  predicate HasConst(classes: ClassTable, path: string, constName: string)
  {
    path in classes && constName in classes[path].consts
  }

  /** The branch of the `switch` an identifier takes once the cache missed and
      the alias step is done: the factory method (with the identifiers it
      requests) takes precedence over the binding constant (with its value);
      otherwise the type is missing, or has neither convention. */
  datatype Strategy = ByMethod(deps: seq<string>) | ByConst(bound: string) | Missing | Neither

  function StrategyOf(classes: ClassTable, methodName: string, constName: string, path: string): (s: Strategy)
    ensures s.ByMethod? <==> HasMethod(classes, path, methodName)
    ensures s.ByConst? <==> !HasMethod(classes, path, methodName) && HasConst(classes, path, constName)
    ensures s.Missing? <==> path !in classes
    ensures s.ByMethod? ==> s.deps == classes[path].methods[methodName]
    ensures s.ByConst? ==> s.bound == classes[path].consts[constName]
  {
    if HasMethod(classes, path, methodName) then ByMethod(classes[path].methods[methodName])
    else if HasConst(classes, path, constName) then ByConst(classes[path].consts[constName])
    else if path !in classes then Missing
    else Neither
  }

  /** The factory method returns after its requests: unless one of them threw,
      a new object is allocated and cached under `path`. */
  function Created(deps: Outcome<seq<Obj>>, path: string): (r: Outcome<Obj>)
    ensures Extends(deps.factory, r.factory)
    ensures IssuedResults(deps) ==> IssuedResult(r)
    ensures r.result.Ok? <==> deps.result.Ok?
    ensures deps.result.Err? ==> r == Outcome(deps.factory, Err(deps.result.error))
    ensures r.result.Ok? ==>
      && deps.factory.next <= r.result.value
      && r.factory.objs == deps.factory.objs[path := r.result.value]
  {
    if deps.result.Err? then Outcome(deps.factory, Err(deps.result.error))
    else
      var g := deps.factory;
      Outcome(g.(objs := g.objs[path := g.next], next := g.next + 1), Ok(g.next))
  }

  /** The binding constant redirects: the answer for its value is returned and,
      unless it threw, cached under that value. */
  function Redirected(inner: Outcome<Obj>, bound: string): (r: Outcome<Obj>)
    ensures Extends(inner.factory, r.factory)
    ensures IssuedResult(inner) ==> IssuedResult(r)
    ensures r.result == inner.result
    ensures inner.result.Err? ==> r == inner
    ensures r.result.Ok? ==>
      && r.factory.objs == inner.factory.objs[bound := r.result.value]
      && r.factory.next == inner.factory.next
  {
    if inner.result.Err? then inner
    else Outcome(inner.factory.(objs := inner.factory.objs[bound := inner.result.value]), inner.result)
  }

  /** `$factory($pathOrAlias)`, i.e. `Factory::__invoke`. Only the two recursive
      strategies consume fuel. */
  function Resolve(classes: ClassTable, f: Factory, pathOrAlias: string, fuel: nat): (r: Outcome<Obj>)
    ensures Extends(f, r.factory)
    ensures IdsIssued(f) ==> IssuedResult(r)
    ensures pathOrAlias in f.objs ==> r == Outcome(f, Ok(f.objs[pathOrAlias]))
    decreases fuel, 0
  {
    if pathOrAlias in f.objs then Outcome(f, Ok(f.objs[pathOrAlias]))
    else
      var path := Substitute(f, pathOrAlias);
      match StrategyOf(classes, f.methodName, f.constName, path)
      case ByMethod(deps) =>
        if fuel == 0 then Outcome(f, Err(OutOfFuel))
        else Created(ResolveAll(classes, f, deps, fuel - 1), path)
      case ByConst(bound) =>
        if fuel == 0 then Outcome(f, Err(OutOfFuel))
        else Redirected(Resolve(classes, f, bound, fuel - 1), bound)
      case Missing => Outcome(f, Err(NotFound(path)))
      case Neither => Outcome(f, Err(NeitherConvention(path, f.constName, f.methodName)))
  }

  /** The requests a factory method makes, in order, each seeing the state the
      previous one left; the first error aborts the rest. */
  function ResolveAll(classes: ClassTable, f: Factory, ids: seq<string>, fuel: nat): (r: Outcome<seq<Obj>>)
    ensures Extends(f, r.factory)
    ensures r.result.Ok? ==> |r.result.value| == |ids|
    ensures IdsIssued(f) ==> IssuedResults(r)
    decreases fuel, |ids| + 1
  {
    if |ids| == 0 then Outcome(f, Ok([]))
    else
      var first := Resolve(classes, f, ids[0], fuel);
      if first.result.Err? then Outcome(first.factory, Err(first.result.error))
      else
        var rest := ResolveAll(classes, first.factory, ids[1..], fuel);
        if rest.result.Err? then Outcome(rest.factory, Err(rest.result.error))
        else Outcome(rest.factory, Ok([first.result.value] + rest.result.value))
  }
}

=== FILE: factory_properties.dfy ===
/** Properties of `Factory::__invoke` that relate several calls or several
    inputs: the strategy order, the caching keys, identity of results and the
    adequacy of the fuel bound. */
module FactoryProperties {
  import opened Wrappers
  import opened AliasTable
  import opened ObjectFactory

  /** One unfolding of a request that missed the cache and reaches the factory method. */
  lemma MethodStep(classes: ClassTable, f: Factory, id: string, fuel: nat)
    requires id !in f.objs && fuel > 0
    requires StrategyOf(classes, f.methodName, f.constName, Substitute(f, id)).ByMethod?
    ensures var s := StrategyOf(classes, f.methodName, f.constName, Substitute(f, id));
      Resolve(classes, f, id, fuel) == Created(ResolveAll(classes, f, s.deps, fuel - 1), Substitute(f, id))
  {
  }

  /** One unfolding of a request that missed the cache and reaches the binding constant. */
  lemma ConstStep(classes: ClassTable, f: Factory, id: string, fuel: nat)
    requires id !in f.objs && fuel > 0
    requires StrategyOf(classes, f.methodName, f.constName, Substitute(f, id)).ByConst?
    ensures var s := StrategyOf(classes, f.methodName, f.constName, Substitute(f, id));
      Resolve(classes, f, id, fuel) == Redirected(Resolve(classes, f, s.bound, fuel - 1), s.bound)
  {
  }

  /** Both class tables offer the same strategy for `path`. */
  predicate SameStrategyAt(a: ClassTable, b: ClassTable, methodName: string, constName: string, path: string)
  {
    StrategyOf(a, methodName, constName, path) == StrategyOf(b, methodName, constName, path)
  }

  /** Two class tables the resolver cannot tell apart. */
  ghost predicate SameStrategies(a: ClassTable, b: ClassTable, methodName: string, constName: string)
  {
    forall p :: SameStrategyAt(a, b, methodName, constName, p)
  }

  /** Resolution looks at a class only through the strategy it offers: tables
      offering the same strategies resolve every identifier alike. */
  lemma {:induction false} ResolveSeesOnlyStrategies(a: ClassTable, b: ClassTable, f: Factory, id: string, fuel: nat)
    requires SameStrategies(a, b, f.methodName, f.constName)
    ensures Resolve(a, f, id, fuel) == Resolve(b, f, id, fuel)
    decreases fuel, 1
  {
    if id !in f.objs {
      assert SameStrategyAt(a, b, f.methodName, f.constName, Substitute(f, id));
      var s := StrategyOf(a, f.methodName, f.constName, Substitute(f, id));
      if fuel > 0 && s.ByMethod? {
        SeesOnlyStrategiesByMethod(a, b, f, id, fuel);
      } else if fuel > 0 && s.ByConst? {
        SeesOnlyStrategiesByConst(a, b, f, id, fuel);
      }
    }
  }

  lemma {:induction false} SeesOnlyStrategiesByMethod(a: ClassTable, b: ClassTable, f: Factory, id: string, fuel: nat)
    requires SameStrategies(a, b, f.methodName, f.constName)
    requires id !in f.objs && fuel > 0
    requires StrategyOf(a, f.methodName, f.constName, Substitute(f, id)).ByMethod?
    ensures Resolve(a, f, id, fuel) == Resolve(b, f, id, fuel)
    decreases fuel, 0
  {
    var path := Substitute(f, id);
    var s := StrategyOf(a, f.methodName, f.constName, path);
    assert SameStrategyAt(a, b, f.methodName, f.constName, path);
    var da := ResolveAll(a, f, s.deps, fuel - 1);
    var db := ResolveAll(b, f, s.deps, fuel - 1);
    ResolveAllSeesOnlyStrategies(a, b, f, s.deps, fuel - 1);
    calc {
      Resolve(a, f, id, fuel);
      { MethodStep(a, f, id, fuel); }
      Created(da, path);
      Created(db, path);
      { MethodStep(b, f, id, fuel); }
      Resolve(b, f, id, fuel);
    }
  }

  lemma {:induction false} SeesOnlyStrategiesByConst(a: ClassTable, b: ClassTable, f: Factory, id: string, fuel: nat)
    requires SameStrategies(a, b, f.methodName, f.constName)
    requires id !in f.objs && fuel > 0
    requires StrategyOf(a, f.methodName, f.constName, Substitute(f, id)).ByConst?
    ensures Resolve(a, f, id, fuel) == Resolve(b, f, id, fuel)
    decreases fuel, 0
  {
    var s := StrategyOf(a, f.methodName, f.constName, Substitute(f, id));
    assert SameStrategyAt(a, b, f.methodName, f.constName, Substitute(f, id));
    var ia := Resolve(a, f, s.bound, fuel - 1);
    var ib := Resolve(b, f, s.bound, fuel - 1);
    ResolveSeesOnlyStrategies(a, b, f, s.bound, fuel - 1);
    calc {
      Resolve(a, f, id, fuel);
      { ConstStep(a, f, id, fuel); }
      Redirected(ia, s.bound);
      Redirected(ib, s.bound);
      { ConstStep(b, f, id, fuel); }
      Resolve(b, f, id, fuel);
    }
  }

  lemma {:induction false} ResolveAllSeesOnlyStrategies(a: ClassTable, b: ClassTable, f: Factory, ids: seq<string>, fuel: nat)
    requires SameStrategies(a, b, f.methodName, f.constName)
    ensures ResolveAll(a, f, ids, fuel) == ResolveAll(b, f, ids, fuel)
    decreases fuel, |ids| + 2
  {
    if |ids| > 0 {
      ResolveSeesOnlyStrategies(a, b, f, ids[0], fuel);
      var first := Resolve(a, f, ids[0], fuel);
      if first.result.Ok? {
        ResolveAllSeesOnlyStrategies(a, b, first.factory, ids[1..], fuel);
      }
    }
  }

  /** The factory method takes precedence: on a class that has the configured
      static method, the configured constant is never consulted, whatever it
      holds and whether or not it exists. */
  lemma MethodShadowsConstant(classes: ClassTable, f: Factory, id: string, fuel: nat,
                              path: string, consts: map<string, string>)
    requires HasMethod(classes, path, f.methodName)
    ensures Resolve(classes[path := ClassDecl(classes[path].methods, consts)], f, id, fuel)
         == Resolve(classes, f, id, fuel)
  {
    var b := classes[path := ClassDecl(classes[path].methods, consts)];
    forall p
      ensures SameStrategyAt(b, classes, f.methodName, f.constName, p)
    {
    }
    ResolveSeesOnlyStrategies(b, classes, f, id, fuel);
  }

  /** A factory method's result is a new object, never one handed out before,
      cached under the substituted identifier (not under an alias). */
  lemma MethodResultIsFreshAndCachedUnderTarget(classes: ClassTable, f: Factory, id: string, fuel: nat)
    requires IdsIssued(f)
    requires id !in f.objs && HasMethod(classes, Substitute(f, id), f.methodName)
    requires Resolve(classes, f, id, fuel).result.Ok?
    ensures var r := Resolve(classes, f, id, fuel);
      && r.factory.objs[Substitute(f, id)] == r.result.value
      && f.next <= r.result.value
      && r.result.value !in f.objs.Values
      && r.factory.next == r.result.value + 1
      && (Substitute(f, id) != id && id in r.factory.objs ==> r.factory.objs[id] != r.result.value)
  {
    MethodStep(classes, f, id, fuel);
  }

  /** A second request hits the cache: once an identifier has been built by
      its factory method (directly, or through the alias step), requesting the
      identifier the object was cached under returns the same object and
      changes nothing. */
  lemma SecondRequestHitsCache(classes: ClassTable, f: Factory, id: string, fuel: nat, fuel': nat)
    requires id !in f.objs && HasMethod(classes, Substitute(f, id), f.methodName)
    requires Resolve(classes, f, id, fuel).result.Ok?
    ensures var r := Resolve(classes, f, id, fuel);
      Resolve(classes, r.factory, Substitute(f, id), fuel') == Outcome(r.factory, r.result)
  {
    if fuel > 0 {
      MethodStep(classes, f, id, fuel);
    }
  }

  /** The two errors of `__invoke`: a name that is neither class nor interface
      gives `NotFound`, an existing type with neither convention gives
      `NeitherConvention` naming both settings; both carry the substituted
      identifier, and neither writes the cache. The alias step is taken once
      only: the target is not looked up again as an alias or in the cache. */
  lemma UnresolvableIdentifiers(classes: ClassTable, f: Factory, id: string, fuel: nat)
    requires id !in f.objs
    ensures var path := Substitute(f, id);
      path !in classes ==> Resolve(classes, f, id, fuel) == Outcome(f, Err(NotFound(path)))
    ensures var path := Substitute(f, id);
      path in classes && !HasMethod(classes, path, f.methodName) && !HasConst(classes, path, f.constName) ==>
        Resolve(classes, f, id, fuel) == Outcome(f, Err(NeitherConvention(path, f.constName, f.methodName)))
  {
  }

  /** No cache re-check after the alias step: requesting an alias of a class
      with the factory method runs that method again on every request and
      overwrites the target's cache entry, as long as the alias itself is not a
      cache key. */
  lemma AliasRebuildsEachTime(classes: ClassTable, f: Factory, alias: string, fuel: nat)
    requires IdsIssued(f)
    requires alias !in f.objs && Get(f.aliases, alias).Some?
    requires HasMethod(classes, Get(f.aliases, alias).value, f.methodName)
    requires Resolve(classes, f, alias, fuel).result.Ok?
    requires alias !in Resolve(classes, f, alias, fuel).factory.objs
    ensures var r1 := Resolve(classes, f, alias, fuel);
      var r2 := Resolve(classes, r1.factory, alias, fuel);
      r2.result.Ok? ==>
        && r2.result.value != r1.result.value
        && r2.factory.objs[Get(f.aliases, alias).value] == r2.result.value
  {
    var r1 := Resolve(classes, f, alias, fuel);
    MethodResultIsFreshAndCachedUnderTarget(classes, f, alias, fuel);
    if Resolve(classes, r1.factory, alias, fuel).result.Ok? {
      MethodResultIsFreshAndCachedUnderTarget(classes, r1.factory, alias, fuel);
    }
  }

  /** An alias to a class whose factory method requests nothing never becomes a
      cache key itself; each request creates one new object under the target. */
  lemma AliasToLeafNeverCached(classes: ClassTable, f: Factory, alias: string, fuel: nat)
    requires alias !in f.objs && Get(f.aliases, alias).Some? && Get(f.aliases, alias).value != alias
    requires HasMethod(classes, Get(f.aliases, alias).value, f.methodName)
    requires classes[Get(f.aliases, alias).value].methods[f.methodName] == []
    requires fuel > 0
    ensures var r := Resolve(classes, f, alias, fuel);
      && r.result == Ok(f.next)
      && r.factory.objs == f.objs[Get(f.aliases, alias).value := f.next]
      && alias !in r.factory.objs
      && r.factory.next == f.next + 1
  {
    MethodStep(classes, f, alias, fuel);
  }

  /** The binding constant redirects: its value is resolved from scratch (cache,
      alias step, strategies), the answer is the answer to requesting that
      value directly, and it is cached under the value, not under the
      requested identifier. */
  lemma ConstantRedirects(classes: ClassTable, f: Factory, id: string, fuel: nat)
    requires id !in f.objs && fuel > 0
    requires StrategyOf(classes, f.methodName, f.constName, Substitute(f, id)).ByConst?
    ensures var bound := StrategyOf(classes, f.methodName, f.constName, Substitute(f, id)).bound;
      var r := Resolve(classes, f, id, fuel);
      var direct := Resolve(classes, f, bound, fuel - 1);
      && r.result == direct.result
      && (r.result.Ok? ==> r.factory.objs == direct.factory.objs[bound := r.result.value])
      && (r.result.Err? ==> r.factory == direct.factory)
  {
    ConstStep(classes, f, id, fuel);
  }

  /** An interface, the class its constant binds, and every identifier that
      reaches the interface through the alias step all yield the same object
      once the interface has been resolved, and asking again changes nothing. */
  lemma BoundIdentity(classes: ClassTable, f: Factory, id: string, fuel: nat, other: string, fuel': nat)
    requires id !in f.objs && fuel > 0
    requires StrategyOf(classes, f.methodName, f.constName, Substitute(f, id)).ByConst?
    requires Resolve(classes, f, id, fuel).result.Ok?
    requires var g := Resolve(classes, f, id, fuel).factory;
      other !in g.objs && Substitute(g, other) == Substitute(f, id) && fuel' > 0
    ensures var bound := StrategyOf(classes, f.methodName, f.constName, Substitute(f, id)).bound;
      var r := Resolve(classes, f, id, fuel);
      && Resolve(classes, r.factory, bound, fuel') == Outcome(r.factory, r.result)
      && Resolve(classes, r.factory, other, fuel') == Outcome(r.factory, r.result)
  {
    var bound := StrategyOf(classes, f.methodName, f.constName, Substitute(f, id)).bound;
    var r := Resolve(classes, f, id, fuel);
    ConstStep(classes, f, id, fuel);
    assert r.factory.objs[bound] == r.result.value;
    assert r.factory.objs[bound := r.result.value] == r.factory.objs;
    ConstStep(classes, r.factory, other, fuel');
  }

  /** No alias of the factory targets `k`. */
  predicate NoAliasTo(f: Factory, k: string)
  {
    forall i :: 0 <= i < |f.aliases| ==> f.aliases[i].1 != k
  }

  /** The alias step never leads to an identifier no alias targets, unless it
      started there. */
  lemma SubstituteAvoids(f: Factory, id: string, k: string)
    requires NoAliasTo(f, k) && id != k
    ensures Substitute(f, id) != k
  {
    GetAgreesWithEntries(f.aliases, id);
    match Get(f.aliases, id)
    case Some(target) =>
      var i :| 0 <= i < |f.aliases| && f.aliases[i] == (id, target);
    case None =>
  }

  /** A cache entry that no alias targets is never overwritten: later requests,
      nested or not, see the same object under that key. */
  lemma {:induction false} CachedEntryStable(classes: ClassTable, f: Factory, id: string, fuel: nat, k: string)
    requires k in f.objs && NoAliasTo(f, k)
    ensures var g := Resolve(classes, f, id, fuel).factory;
      k in g.objs && g.objs[k] == f.objs[k]
    decreases fuel, 0
  {
    if id !in f.objs && fuel > 0 {
      var path := Substitute(f, id);
      match StrategyOf(classes, f.methodName, f.constName, path)
      case ByMethod(deps) =>
        var d := ResolveAll(classes, f, deps, fuel - 1);
        assert Resolve(classes, f, id, fuel) == Created(d, path) by {
          MethodStep(classes, f, id, fuel);
        }
        ResolveAllCachedEntryStable(classes, f, deps, fuel - 1, k);
        SubstituteAvoids(f, id, k);
      case ByConst(bound) =>
        var inner := Resolve(classes, f, bound, fuel - 1);
        assert Resolve(classes, f, id, fuel) == Redirected(inner, bound) by {
          ConstStep(classes, f, id, fuel);
        }
        CachedEntryStable(classes, f, bound, fuel - 1, k);
      case _ =>
    }
  }

  lemma {:induction false} ResolveAllCachedEntryStable(classes: ClassTable, f: Factory, ids: seq<string>, fuel: nat, k: string)
    requires k in f.objs && NoAliasTo(f, k)
    ensures var g := ResolveAll(classes, f, ids, fuel).factory;
      k in g.objs && g.objs[k] == f.objs[k]
    decreases fuel, |ids| + 1
  {
    if |ids| > 0 {
      CachedEntryStable(classes, f, ids[0], fuel, k);
      var first := Resolve(classes, f, ids[0], fuel);
      if first.result.Ok? {
        ResolveAllCachedEntryStable(classes, first.factory, ids[1..], fuel, k);
      }
    }
  }

  /** An identifier whose request ends cached under its own name: it is cached
      already, or it is no alias and its class has the factory method. */
  predicate Settles(classes: ClassTable, f: Factory, x: string)
  {
    x in f.objs || (Get(f.aliases, x).None? && HasMethod(classes, x, f.methodName))
  }

  /** Requests made one after another, as a factory method makes them, leave
      each settling identifier cached with the very object that was handed out
      for it, so a later direct request returns that object. */
  lemma {:induction false} ResolveAllCachesRequests(classes: ClassTable, f: Factory, ids: seq<string>, fuel: nat)
    requires forall i :: 0 <= i < |ids| ==> Settles(classes, f, ids[i]) && NoAliasTo(f, ids[i])
    ensures var r := ResolveAll(classes, f, ids, fuel);
      r.result.Ok? ==> forall i :: 0 <= i < |ids| ==> ids[i] in r.factory.objs && r.factory.objs[ids[i]] == r.result.value[i]
    decreases |ids|
  {
    var r := ResolveAll(classes, f, ids, fuel);
    if |ids| > 0 && r.result.Ok? {
      var first := Resolve(classes, f, ids[0], fuel);
      var g := first.factory;
      if ids[0] !in f.objs {
        MethodStep(classes, f, ids[0], fuel);
      }
      assert g.objs[ids[0]] == first.result.value;
      forall i | 0 <= i < |ids[1..]|
        ensures Settles(classes, g, ids[1..][i]) && NoAliasTo(g, ids[1..][i])
      {
        assert Settles(classes, f, ids[i + 1]) && NoAliasTo(f, ids[i + 1]);
      }
      ResolveAllCachesRequests(classes, g, ids[1..], fuel);
      ResolveAllCachedEntryStable(classes, g, ids[1..], fuel, ids[0]);
      var rest := ResolveAll(classes, g, ids[1..], fuel);
      assert r.result.value == [first.result.value] + rest.result.value;
      forall i | 0 <= i < |ids|
        ensures ids[i] in r.factory.objs && r.factory.objs[ids[i]] == r.result.value[i]
      {
        if i > 0 {
          assert ids[i] == ids[1..][i - 1];
        }
      }
    }
  }

  /** A request list of one is the single request, its object wrapped in a
      list or its error passed through with the state reached. */
  lemma SingleRequest(classes: ClassTable, f: Factory, id: string, fuel: nat)
    ensures var r := Resolve(classes, f, id, fuel);
      ResolveAll(classes, f, [id], fuel)
        == if r.result.Err? then Outcome(r.factory, Err(r.result.error))
           else Outcome(r.factory, Ok([r.result.value]))
  {
    assert [id][1..] == [];
    var r := Resolve(classes, f, id, fuel);
    if r.result.Ok? {
      assert ResolveAll(classes, r.factory, [], fuel) == Outcome(r.factory, Ok([]));
      assert [r.result.value] + [] == [r.result.value];
    }
  }

  /** Requests are made in order: a list split in two resolves the first part,
      then the second part in the state the first left. The first error stops
      everything after it and is the error reported. */
  lemma {:induction false} ResolveAllAppend(classes: ClassTable, f: Factory, ids: seq<string>, jds: seq<string>, fuel: nat)
    ensures var a := ResolveAll(classes, f, ids, fuel);
      var b := ResolveAll(classes, a.factory, jds, fuel);
      ResolveAll(classes, f, ids + jds, fuel)
        == if a.result.Err? then a
           else if b.result.Err? then b
           else Outcome(b.factory, Ok(a.result.value + b.result.value))
    decreases |ids|
  {
    if |ids| == 0 {
      assert ids + jds == jds;
      var b := ResolveAll(classes, f, jds, fuel);
      if b.result.Ok? {
        assert [] + b.result.value == b.result.value;
      }
    } else {
      assert (ids + jds)[0] == ids[0];
      assert (ids + jds)[1..] == ids[1..] + jds;
      var first := Resolve(classes, f, ids[0], fuel);
      if first.result.Ok? {
        ResolveAllAppend(classes, first.factory, ids[1..], jds, fuel);
        var rest := ResolveAll(classes, first.factory, ids[1..], fuel);
        if rest.result.Ok? {
          var b := ResolveAll(classes, rest.factory, jds, fuel);
          if b.result.Ok? {
            assert [first.result.value] + (rest.result.value + b.result.value)
                == ([first.result.value] + rest.result.value) + b.result.value;
          }
        }
      }
    }
  }

  /** Shared cache across nesting: the objects a factory method received for
      its settling requests are the ones cached under those identifiers after
      it returns, so asking for them directly later yields the same objects. */
  lemma DependenciesShared(classes: ClassTable, f: Factory, id: string, fuel: nat)
    requires id !in f.objs && fuel > 0
    requires StrategyOf(classes, f.methodName, f.constName, Substitute(f, id)).ByMethod?
    requires var deps := StrategyOf(classes, f.methodName, f.constName, Substitute(f, id)).deps;
      && Substitute(f, id) !in deps
      && forall i :: 0 <= i < |deps| ==> Settles(classes, f, deps[i]) && NoAliasTo(f, deps[i])
    requires Resolve(classes, f, id, fuel).result.Ok?
    ensures var deps := StrategyOf(classes, f.methodName, f.constName, Substitute(f, id)).deps;
      var received := ResolveAll(classes, f, deps, fuel - 1);
      var r := Resolve(classes, f, id, fuel);
      && received.result.Ok?
      && forall i :: 0 <= i < |deps| ==>
           Resolve(classes, r.factory, deps[i], fuel) == Outcome(r.factory, Ok(received.result.value[i]))
  {
    var path := Substitute(f, id);
    var deps := StrategyOf(classes, f.methodName, f.constName, path).deps;
    var received := ResolveAll(classes, f, deps, fuel - 1);
    var r := Resolve(classes, f, id, fuel);
    assert r == Created(received, path) by {
      MethodStep(classes, f, id, fuel);
    }
    ResolveAllCachesRequests(classes, f, deps, fuel - 1);
    forall i | 0 <= i < |deps|
      ensures Resolve(classes, r.factory, deps[i], fuel) == Outcome(r.factory, Ok(received.result.value[i]))
    {
      assert deps[i] != path;
      assert r.factory.objs[deps[i]] == received.factory.objs[deps[i]];
    }
  }

  /** The fuel bound is adequate: an answer reached without exhausting the
      fuel is the answer for any larger fuel, so it is the source's answer. */
  lemma {:induction false} MoreFuelSameOutcome(classes: ClassTable, f: Factory, id: string, fuel: nat, more: nat)
    requires fuel <= more
    requires Resolve(classes, f, id, fuel).result != Err(OutOfFuel)
    ensures Resolve(classes, f, id, more) == Resolve(classes, f, id, fuel)
    decreases fuel, 1
  {
    if id !in f.objs && fuel > 0 {
      var s := StrategyOf(classes, f.methodName, f.constName, Substitute(f, id));
      if s.ByMethod? {
        MoreFuelByMethod(classes, f, id, fuel, more);
      } else if s.ByConst? {
        MoreFuelByConst(classes, f, id, fuel, more);
      }
    }
  }

  lemma {:induction false} MoreFuelByMethod(classes: ClassTable, f: Factory, id: string, fuel: nat, more: nat)
    requires fuel <= more && id !in f.objs && fuel > 0
    requires StrategyOf(classes, f.methodName, f.constName, Substitute(f, id)).ByMethod?
    requires Resolve(classes, f, id, fuel).result != Err(OutOfFuel)
    ensures Resolve(classes, f, id, more) == Resolve(classes, f, id, fuel)
    decreases fuel, 0
  {
    var path := Substitute(f, id);
    var deps := StrategyOf(classes, f.methodName, f.constName, path).deps;
    var d := ResolveAll(classes, f, deps, fuel - 1);
    var e := ResolveAll(classes, f, deps, more - 1);
    assert Resolve(classes, f, id, fuel) == Created(d, path) by {
      MethodStep(classes, f, id, fuel);
    }
    assert d.result != Err(OutOfFuel);
    ResolveAllMoreFuelSameOutcome(classes, f, deps, fuel - 1, more - 1);
    assert Resolve(classes, f, id, more) == Created(e, path) by {
      MethodStep(classes, f, id, more);
    }
  }

  lemma {:induction false} MoreFuelByConst(classes: ClassTable, f: Factory, id: string, fuel: nat, more: nat)
    requires fuel <= more && id !in f.objs && fuel > 0
    requires StrategyOf(classes, f.methodName, f.constName, Substitute(f, id)).ByConst?
    requires Resolve(classes, f, id, fuel).result != Err(OutOfFuel)
    ensures Resolve(classes, f, id, more) == Resolve(classes, f, id, fuel)
    decreases fuel, 0
  {
    var bound := StrategyOf(classes, f.methodName, f.constName, Substitute(f, id)).bound;
    var a := Resolve(classes, f, bound, fuel - 1);
    var b := Resolve(classes, f, bound, more - 1);
    assert Resolve(classes, f, id, fuel) == Redirected(a, bound) by {
      ConstStep(classes, f, id, fuel);
    }
    MoreFuelSameOutcome(classes, f, bound, fuel - 1, more - 1);
    assert Resolve(classes, f, id, more) == Redirected(b, bound) by {
      ConstStep(classes, f, id, more);
    }
  }

  lemma {:induction false} ResolveAllMoreFuelSameOutcome(classes: ClassTable, f: Factory, ids: seq<string>, fuel: nat, more: nat)
    requires fuel <= more
    requires ResolveAll(classes, f, ids, fuel).result != Err(OutOfFuel)
    ensures ResolveAll(classes, f, ids, more) == ResolveAll(classes, f, ids, fuel)
    decreases fuel, |ids| + 2
  {
    if |ids| > 0 {
      MoreFuelSameOutcome(classes, f, ids[0], fuel, more);
      var first := Resolve(classes, f, ids[0], fuel);
      if first.result.Ok? {
        ResolveAllMoreFuelSameOutcome(classes, first.factory, ids[1..], fuel, more);
      }
    }
  }
}

=== FILE: fixtures.dfy ===
/** The scenarios of the repository's own tests, replayed on the model: the
    class table of test/Res and the configurations the tests build. */
module Fixtures {
  import opened Wrappers
  import opened AliasTable
  import opened Configuration
  import opened ObjectFactory
  import FactoryProperties

  const NoDeps := "Test\\Res\\StaticMethodNoDependencies"
  const WithDeps := "Test\\Res\\StaticMethodDependencies"
  const Iface := "Test\\Res\\InterfaceWithConstant"
  const Bound := "Test\\Res\\BoundClass"
  const NoMethod := "Test\\Res\\ClassWithNoMethod"
  const IfaceAlias := "interface-with-constant"

  /** test/Res: two classes whose `create` requests their dependency, an
      interface whose `CREATED_BY` names the class implementing it (which
      inherits the constant but is built by its own `create`), and a class with
      neither convention. */
  function TestClasses(): ClassTable
  {
    map[
      NoDeps := ClassDecl(map["create" := []], map[]),
      WithDeps := ClassDecl(map["create" := [NoDeps]], map[]),
      Iface := ClassDecl(map[], map["CREATED_BY" := Bound]),
      Bound := ClassDecl(map["create" := [WithDeps]], map["CREATED_BY" := Bound]),
      NoMethod := ClassDecl(map[], map[])
    ]
  }

  /** The factory every factory test starts from: default settings and one
      alias added by the configuration callback. */
  function TestFactory(): (f: Factory)
    ensures f.objs == map[] && f.next == 0
    ensures f.aliases == [(IfaceAlias, Iface)]
    ensures f.methodName == "create" && f.constName == "CREATED_BY"
  {
    CreateWith(Some((c: Config) => AddAlias(c, IfaceAlias, Iface)))
  }

  /** The states the factory tests pass through: after building the
      dependency-free class, the class depending on it, and the bound class. */
  function AfterNoDeps(): Factory
  {
    TestFactory().(objs := map[NoDeps := 0], next := 1)
  }

  function AfterWithDeps(): Factory
  {
    TestFactory().(objs := map[NoDeps := 0, WithDeps := 1], next := 2)
  }

  function AfterBound(): Factory
  {
    TestFactory().(objs := map[NoDeps := 0, WithDeps := 1, Bound := 2], next := 3)
  }

  /** A class built by a dependency-free `create` is created and cached. */
  lemma StaticMethodWithoutDependencies(fuel: nat)
    requires fuel > 0
    ensures Resolve(TestClasses(), TestFactory(), NoDeps, fuel) == Outcome(AfterNoDeps(), Ok(0))
  {
    FactoryProperties.MethodStep(TestClasses(), TestFactory(), NoDeps, fuel);
  }

  /** A class whose `create` requests another class: the dependency is built
      first, and a later request for it returns the very object the dependent
      received. */
  lemma StaticMethodWithDependencies(fuel: nat)
    requires fuel > 1
    ensures ResolveAll(TestClasses(), TestFactory(), [NoDeps], fuel - 1) == Outcome(AfterNoDeps(), Ok([0]))
    ensures Resolve(TestClasses(), TestFactory(), WithDeps, fuel) == Outcome(AfterWithDeps(), Ok(1))
    ensures Resolve(TestClasses(), AfterWithDeps(), NoDeps, fuel) == Outcome(AfterWithDeps(), Ok(0))
  {
    StaticMethodWithoutDependencies(fuel - 1);
    assert ResolveAll(TestClasses(), AfterNoDeps(), [NoDeps][1..], fuel - 1) == Outcome(AfterNoDeps(), Ok([]));
    assert [0] + [] == [0];
    FactoryProperties.MethodStep(TestClasses(), TestFactory(), WithDeps, fuel);
  }

  /** The bound class is built by its own `create`, not by the constant it
      inherits. */
  lemma BoundClassByMethod(fuel: nat)
    requires fuel > 2
    ensures ResolveAll(TestClasses(), TestFactory(), [WithDeps], fuel - 1) == Outcome(AfterWithDeps(), Ok([1]))
    ensures Resolve(TestClasses(), TestFactory(), Bound, fuel) == Outcome(AfterBound(), Ok(2))
  {
    StaticMethodWithDependencies(fuel - 1);
    assert ResolveAll(TestClasses(), AfterWithDeps(), [WithDeps][1..], fuel - 1) == Outcome(AfterWithDeps(), Ok([]));
    assert [1] + [] == [1];
    FactoryProperties.MethodStep(TestClasses(), TestFactory(), Bound, fuel);
  }

  /** An interface is built through its binding constant: the result is the
      bound class's object, cached under the bound class and not under the
      interface, and its dependency is shared with later direct requests. */
  lemma InterfaceByConstant(fuel: nat)
    requires fuel > 3
    ensures Resolve(TestClasses(), TestFactory(), Iface, fuel) == Outcome(AfterBound(), Ok(2))
    ensures ResolveAll(TestClasses(), TestFactory(), [WithDeps], fuel - 2) == Outcome(AfterWithDeps(), Ok([1]))
    ensures Iface !in AfterBound().objs
    ensures Resolve(TestClasses(), AfterBound(), WithDeps, fuel) == Outcome(AfterBound(), Ok(1))
  {
    BoundClassByMethod(fuel - 1);
    FactoryProperties.ConstStep(TestClasses(), TestFactory(), Iface, fuel);
    assert AfterBound().objs[Bound := 2] == AfterBound().objs;
  }

  /** The alias and the interface it names give the same object. */
  lemma AliasResolves(fuel: nat)
    requires fuel > 3
    ensures Resolve(TestClasses(), TestFactory(), IfaceAlias, fuel) == Outcome(AfterBound(), Ok(2))
    ensures Resolve(TestClasses(), AfterBound(), Iface, fuel) == Outcome(AfterBound(), Ok(2))
  {
    BoundClassByMethod(fuel - 1);
    FactoryProperties.ConstStep(TestClasses(), TestFactory(), IfaceAlias, fuel);
    FactoryProperties.ConstStep(TestClasses(), AfterBound(), Iface, fuel);
    assert AfterBound().objs[Bound := 2] == AfterBound().objs;
  }

  /** A class with neither a `create` method nor a `CREATED_BY` constant is an
      error. */
  lemma NeitherConventionFails(fuel: nat)
    ensures Resolve(TestClasses(), TestFactory(), NoMethod, fuel)
         == Outcome(TestFactory(), Err(NeitherConvention(NoMethod, "CREATED_BY", "create")))
  {
  }

  /** A name that is no class or interface is reported as not found. */
  lemma MissingClassFails(fuel: nat)
    ensures Resolve(TestClasses(), TestFactory(), "Test\\Res\\Missing", fuel)
         == Outcome(TestFactory(), Err(NotFound("Test\\Res\\Missing")))
  {
  }

  /** The builder's defaults and fluent setters. */
  lemma ConfigDefaultsAndSetters()
    ensures GetMethod(Default()) == "create" && GetConst(Default()) == "CREATED_BY"
    ensures GetAliases(Default()) == []
    ensures GetMethod(SetMethod(Default(), "METHOD")) == "METHOD"
    ensures GetConst(SetConst(Default(), "CONST")) == "CONST"
  {
  }

  /** `addAlias` on an existing alias keeps one entry holding the new path. */
  lemma ConfigAliasOverwritten()
    ensures GetAliases(AddAlias(Default(), "ALIAS", "PATH")) == [("ALIAS", "PATH")]
    ensures GetAliases(AddAlias(AddAlias(Default(), "ALIAS", "PATH_1"), "ALIAS", "PATH_2"))
         == [("ALIAS", "PATH_2")]
  {
  }

  function Pair(alias: string, path: string): Entry
  {
    Entry(StrKey(alias), StrVal(path))
  }

  /** Bulk additions keep input order. */
  lemma ConfigAddAliases()
    ensures var r := AddAliases(Default(), [Pair("A", "B"), Pair("C", "D")]);
      r == Done(Default().(aliases := [("A", "B"), ("C", "D")]))
  {
    var c1 := AddAlias(Default(), "A", "B");
    assert c1.aliases == [("A", "B")];
    var c2 := AddAlias(c1, "C", "D");
    assert c2.aliases == [("A", "B"), ("C", "D")];
    assert AddAliases(Default(), [Pair("A", "B"), Pair("C", "D")]) == AddAliases(c1, [Pair("C", "D")]);
  }

  /** A later bulk addition overwrites an existing alias in place. */
  lemma ConfigAddAliasesOverrides()
    ensures var c := Default().(aliases := [("A", "B"), ("C", "D")]);
      AddAliases(c, [Pair("C", "E")]) == Done(c.(aliases := [("A", "B"), ("C", "E")]))
  {
    var c := Default().(aliases := [("A", "B"), ("C", "D")]);
    assert Put(c.aliases, "C", "E") == [("A", "B")] + Put([("C", "D")], "C", "E");
  }

  /** A list (integer keys) is rejected before anything is added. */
  lemma ConfigListRejected()
    ensures AddAliases(Default(), [Entry(IntKey(0), StrVal("A")), Entry(IntKey(1), StrVal("B"))])
         == Thrown(Default(), InvalidAliases)
    ensures SetAliases(Default(), [Entry(IntKey(0), StrVal("A")), Entry(IntKey(1), StrVal("B"))])
         == Thrown(Default(), InvalidAliases)
  {
  }

  /** `setAliases` drops what was there. */
  lemma ConfigSetAliasesReplaces()
    ensures var c := Default().(aliases := [("A", "B"), ("C", "D")]);
      SetAliases(c, [Pair("E", "F"), Pair("G", "H")]) == Done(Default().(aliases := [("E", "F"), ("G", "H")]))
  {
    var c1 := AddAlias(Default(), "E", "F");
    assert c1.aliases == [("E", "F")];
    var c2 := AddAlias(c1, "G", "H");
    assert c2.aliases == [("E", "F"), ("G", "H")];
    assert AddAliases(Default(), [Pair("E", "F"), Pair("G", "H")]) == AddAliases(c1, [Pair("G", "H")]);
  }
}

=== FILE: wrappers.dfy ===
/** Option and Result, the failure-carrying values used throughout the model. */
module Wrappers {

  /** A value that may be absent: the outcome of a table lookup. */
  datatype Option<+T> = None | Some(value: T)

  /** The outcome of an operation that can throw: a value or the error raised. */
  datatype Result<+T, +E> = Ok(value: T) | Err(error: E)
}
